=== FILE: README.md ===
# Curly-brace annotation geometry, in Dafny

A model of the core of `curlyBrace`, the routine that draws a curly brace
between two points of a plot. It can also draw a rotated text label at the
brace's apex (the summit). The model covers three exact parts:

- The **per-axis affine map**. Each axis moves its lower view limit to the
  origin and multiplies by its pixels-per-unit ratio. The inverse divides and
  adds the limit back. With auto-scaling off, the ratio is forced to 1.
- The **arc algebra**. The radius is `k_r` times the chord length. There are
  four arc centres. Each of the four quarter-circle arcs has two ends and
  adds a fixed phase (+π/2, −π/2, +π, 0) to the sampled angle. The samples
  run forward (`q`, θ to θ+π/2) or reversed (`t`). The cosine and sine of
  θ are inputs (`Heading(c, s)`). The identities cos(x+π/2) = −sin x,
  cos(x−π/2) = sin x and cos(x+π) = −cos x become the operations
  `QuarterTurn`, `QuarterBack` and `HalfTurn` on headings. With them, every
  arc endpoint is an exact expression in p1, p2, r, c and s.
- The **label rule**. The angle is reduced with Python's `% 360.0`, taken
  exactly. The rule then picks the rotation and decides whether the line
  breaks go after or before the text. The boundaries are asymmetric: 90 and
  270 fall in the appending branches.

Modules: `Plane` (points, headings, quarter turns), `AxisMap`, `Degrees`
(`% 360` and the swapped angle), `Annotation` (label rule), `Brace` (pixel-space
geometry), `CurlyBrace` (one call end to end, on linear axes), `Wrappers`
(`Option`).

Behaviour of the code that is easy to misread:

- **Swapping p1 and p2.** For a chord of non-zero length, the angle becomes
  `(ang + 180) % 360`. The line breaks change side. The rotation stays congruent modulo 360, so it does
  not change by 180. The exceptions are exactly 90 and 270: both the angle
  and its swap fall in an appending branch, and the rotations differ by 180.
  In every branch, these boundaries included, the text is pushed along the
  brace's left normal, the side where the summit sticks out
  (`LabelOnSummitSide`). So the asymmetric boundary is harmless. It is
  modelled as written, and it is not reported as a defect. For p1 = p2,
  `arctan2(0, 0)` is 0 in both orders. Both calls then append, so nothing
  flips.
- **Arcs are not joined end to end.** Arc 1's last point is p1 + r·d + r·n.
  Arc 2's first point is mid − r·d + r·n. Here d is the chord direction and
  n is its left normal. The code bridges each gap with a straight segment.
  The segment runs to the second sample of the next arc, not to its first.
- **No domain error on log axes.** The code takes `np.log` of a non-positive
  coordinate and raises nothing. The result is non-finite: −inf for 0 and
  NaN for a negative value. Log axes are not
  modelled.
- **An angle outside [0, 360] matches no branch.** Only NaN can do this in
  floating point. `rotation` is then never assigned, and the text call fails.
  This is the `RotationUnbound` outcome.
- **Negative padding.** `'\n' * n` with a negative `n` is the empty string.

## Model

| member | source | states |
|---|---|---|
| Plane.QuarterTurn | curlyBrace.py:265-266 | adding π/2 to the angle gives the left normal, which is perpendicular to the heading; it keeps unit length |
| Plane.QuarterBack | curlyBrace.py:268-269 | subtracting π/2 undoes adding π/2; it keeps unit length |
| Plane.HalfTurn | curlyBrace.py:271-272 | adding π is two quarter turns and reverses the direction vector |
| Plane.TurnsCancel | curlyBrace.py:265-275 | a quarter turn and a quarter turn back cancel in either order; two half turns cancel |
| AxisMap.ToPixel | curlyBrace.py:228-233 | `(v − lo)·scale`, undone by `/scale + lo` whenever the scale is non-zero; a pure shift when the scale is 1 |
| AxisMap.FromPixel | curlyBrace.py:277-286 | `u/scale + lo` is a right inverse of the forward map |
| AxisMap.RoundTrip | curlyBrace.py:228-286 | data value → pixels → data value is the identity for a non-zero scale |
| AxisMap.MakeAxis | curlyBrace.py:214-226 | auto-scaling off forces scale 1; auto-scaling on lays the view window [lo, hi] onto [0, extent] pixels, with no finite, invertible scale when hi = lo or the extent is 0 |
| AxisMap.UnitScaleIsShift | curlyBrace.py:218-233 | with scale 1, pixel differences equal data differences, so the chord's heading does not depend on the view limits |
| AxisMap.FromPixelMidpoint | curlyBrace.py:278-286 | the inverse map carries pixel midpoints to data midpoints |
| Degrees.Mod360 | curlyBrace.py:330 | the floor-mod remainder lies in [0, 360) and names the same direction as its argument |
| Degrees.Mod360Unique | curlyBrace.py:330 | the remainder is the only angle in [0, 360) congruent to the argument |
| Degrees.SwapAngle | curlyBrace.py:236 | the angle of the reversed chord of non-zero length (`arctan2` plus π in degrees) is half a turn more, reduced into [0, 360) |
| Degrees.SwapAngleClosedForm | curlyBrace.py:83-84 | on [0, 360] the reversed chord's angle is ang + 180 below 180 and ang − 180 from 180 on |
| Degrees.SwapAngleInvolution | curlyBrace.py:83-84 | swapping twice restores every angle in [0, 360) |
| Annotation.SideFor | curlyBrace.py:332-348 | the branches partition [0, 360]: prepend exactly on (90, 270), append exactly on [0, 90] ∪ [270, 360], and no branch outside [0, 360] |
| Annotation.Newlines | curlyBrace.py:327 | `'\n' * n` has max(n, 0) characters, all of them line breaks |
| Annotation.PlaceLabel | curlyBrace.py:323-350 | empty text gives no label; an angle outside [0, 360] gives the unset rotation; otherwise the label is the text plus exactly max(n, 0) line breaks, with the text as prefix and rotation = ang when appending, and as suffix and rotation = ang + 180 when prepending |
| Annotation.SwapBranches | curlyBrace.py:332-348 | for an angle and its swap, the branches differ exactly when the angle is not 90 or 270; the rotations are congruent, or half a turn apart at 90 and 270 |
| Annotation.SwapFlipsSide | curlyBrace.py:83-84 | swapping p1 and p2 moves the line breaks to the other side of the text, except at 90 and 270, and keeps the rotation modulo 360 |
| Annotation.LabelReadsUpright | curlyBrace.py:332-348 | every rotation, reduced modulo 360, lies in [0, 90] or [270, 360): the text is never upside down |
| Annotation.LabelOnSummitSide | curlyBrace.py:325-350 | in every branch the padding pushes the text along the brace's left normal, towards the outside of the brace |
| Annotation.LabelExamples | curlyBrace.py:323-348 | "Span" at 45° with one line is "Span\n" at 45°; 90 and 270 append; 90.5 prepends at 270.5; a negative line count adds nothing |
| Brace.Reversed | curlyBrace.py:236-239 | swapping the endpoints exchanges p1 and p2, keeps the length, and reverses the heading's direction vector; a well-formed chord stays well formed |
| Brace.Radius | curlyBrace.py:239 | r ≥ 0 for non-negative k_r and length; r = 0 exactly when k_r = 0 or the chord is empty |
| Brace.ArcCentres | curlyBrace.py:241-255 | arc 1's centre is r along the chord from p1, and arc 4's is r back from p2; the inner two centres are 2r apart along the chord, symmetric about the point 2r out along the normal from the midpoint |
| Brace.ArcPointOnCircle | curlyBrace.py:264-275 | every sample of every arc, not only its ends, is at distance r from that arc's centre |
| Brace.BuildShape | curlyBrace.py:257-275 | arc 1 starts exactly at p1 and arc 4 ends exactly at p2; arc 2's last point and arc 3's first point are both the summit, mid + 2r·n; the gap ends are p1 + r·d + r·n, mid − r·d + r·n, mid + r·d + r·n and p2 − r·d + r·n |
| Brace.SummitDistance | curlyBrace.py:321 | the summit is at distance 2r from the chord's midpoint |
| Brace.DegenerateCollapse | curlyBrace.py:239-275 | with k_r = 0 or a zero chord length, arc 1 collapses to p1, arcs 2 and 3 to the midpoint (which is then the summit), and arc 4 to p2 |
| Brace.CoincidentEndsZeroLength | curlyBrace.py:239 | a well-formed chord with p1 = p2 has length 0, whatever its heading |
| Brace.CoincidentEndsCollapse | curlyBrace.py:239-275 | with p1 = p2, every arc endpoint and the summit is that point |
| Brace.ShapeInFrame | curlyBrace.py:241-275 | in the chord's frame, with l half its length, the brace runs from (−l, 0) to (l, 0); the gap ends are at (−l+r, r), (−r, r), (r, r), (l−r, r); the summit is at (0, 2r) |
| Brace.MirrorAboutBisector | curlyBrace.py:245-275 | mirroring in the chord's perpendicular bisector swaps p1 with p2, swaps the two gap segments' ends, and fixes the summit |
| Brace.SwapMirrorsAcrossChord | curlyBrace.py:83-84 | swapping p1 and p2 mirrors the brace in the chord: the new brace runs from p2 to p1, and its summit and gap ends mirror the original ones, in reverse order |
| Brace.SpanExample | curlyBrace.py:236-275 | from (0, 0) to (1, 1) with k_r = 0.1 and no scaling, the chord is well formed and the summit is (0.3, 0.7) |
| CurlyBrace.FrameOf | curlyBrace.py:214-226 | a frame exists, with non-zero scales on both axes, exactly when auto-scaling is off or both axes have a non-empty window and a non-zero pixel extent; each axis starts at its lower view limit; the scales are 1 with auto-scaling off, and with it on each upper view limit maps to the region's pixel extent |
| CurlyBrace.PointFromPixel | curlyBrace.py:277-286 | mapping a pixel point back to data space and forward again returns the pixel point |
| CurlyBrace.DrawBrace | curlyBrace.py:182-350 | the data-space brace starts exactly at p1 and ends exactly at p2; arcs 2 and 3 meet at the summit; in pixel space the summit is 2r out along the normal from the midpoint of the mapped endpoints, and the four gap ends (arc 1's last, arc 2's first, arc 3's last and arc 4's first point) are mapped p1 + r·d + r·n, mid − r·d + r·n, mid + r·d + r·n and mapped p2 − r·d + r·n, under any scaling; a label is placed exactly when the text is non-empty, and it is the label rule's result for the angle reduced modulo 360 |
| CurlyBrace.UnscaledSummit | curlyBrace.py:218-233 | with auto-scaling off the view limits cancel out: the data-space summit is the data-space midpoint moved 2r along the normal |
| CurlyBrace.FlatSummit | curlyBrace.py:321 | with k_r = 0 the summit is exactly the data-space midpoint of p1 and p2, for any view that has a frame |

## Left out

- `getAxSize` (curlyBrace.py:42-74) reads the host's bounding box and dpi. The region's pixel size is an input (`View`).
- Logarithmic axes (curlyBrace.py:187-212, 288-309) need `np.log` and `np.exp`. The code raises no error for a non-positive coordinate there; it yields a non-finite value.
- `np.arctan2`, `np.hypot` and `np.degrees` (curlyBrace.py:236, 239, 330) are replaced by inputs: the chord's length, its heading as (cos θ, sin θ), and the angle in degrees. `Brace.WellFormed` states the relation the first two have to the chord. Nothing relates the degree angle to the heading.
- The returned `theta` is the heading input itself and is not part of `Drawn`.
- CurlyBrace.DrawBrace: keeps only the first and last sample of each arc. The 48 interior samples of `np.linspace(..., 50)` need the cosine at arbitrary angles. `Brace.ArcPointOnCircle` still holds for every sample heading.
- The two connecting segments (curlyBrace.py:318-319) end at the second sample of arcs 2 and 4. That sample is an interior one, so these segments are left out too.
- The drawing calls `ax.plot` and `ax.axes.text`, and the `fontdict` and `**kwargs` pass-through, are rendering on the host (curlyBrace.py:311-319, 350).
- Floating point is modelled as exact `real`. That leaves out rounding, including `% 360.0` returning 360.0. It also leaves out NaN and infinities. Where the code would produce them (a zero-width view window or a zero pixel extent under auto-scaling), the model returns `None`. Where only NaN could reach the label rule, the model returns `RotationUnbound`.
- With auto-scaling off, the code still divides the extent by the window width before overwriting the scale with 1. The model skips that discarded division.
- `int(int_line_num)` on a non-integer: the line count is an `int` input.
- The keyword defaults of `curlyBrace` (curlyBrace.py:76) are not modelled: k_r = 0.1, `bool_auto` true, empty text, and 2 lines. Every field of `Request` is supplied explicitly. The defaults only fill in missing arguments.
- Annotation.SwapFlipsSide: relates the label at `ang` to the label at `SwapAngle(ang)`. That is what swapping p1 and p2 does only for a chord of non-zero length. For p1 = p2, `arctan2(0, 0)` is 0 in both orders, so both calls append at rotation 0 and nothing flips. `Brace.SwapMirrorsAcrossChord` is unaffected, because the brace of an empty chord is a single point (`Brace.CoincidentEndsCollapse`).

=== FILE: axis_map.dfy ===
/** The per-axis affine map between data units and pixels: the lower view
    limit is moved to the origin and the result multiplied by the axis's
    pixels-per-unit ratio; the inverse divides and adds the limit back. */
module AxisMap {
  import opened Wrappers

  /** One axis of the frame: its lower view limit and its pixel scale. */
  datatype Axis = Axis(lo: real, scale: real)

  /** The forward map `(v − lo) · scale`. */
  function ToPixel(a: Axis, v: real): (u: real)
    ensures a.scale != 0.0 ==> u / a.scale + a.lo == v
    ensures a.scale == 1.0 ==> u == v - a.lo
  {
    (v - a.lo) * a.scale
  }

  /** The inverse map `u / scale + lo`; `curlyBrace` divides by the scale,
      so a zero scale has no finite inverse. */
  function FromPixel(a: Axis, u: real): (v: real)
    requires a.scale != 0.0
    ensures ToPixel(a, v) == u
  {
    u / a.scale + a.lo
  }

  /** Mapping a data value to pixels and back returns it unchanged. */
  lemma RoundTrip(a: Axis, v: real)
    requires a.scale != 0.0
    ensures FromPixel(a, ToPixel(a, v)) == v
  {
  }

  /** The axis of the frame. With auto-scaling on, the scale is the region's
      pixel extent over the width of the view window, so that window is laid
      onto [0, extent] pixels; a window of zero width has no finite scale,
      and a zero extent gives a scale the inverse map cannot divide by.
      With auto-scaling off the scale is forced to 1. */
  function MakeAxis(extentPx: real, lo: real, hi: real, auto: bool): (o: Option<Axis>)
    ensures !auto ==> o == Some(Axis(lo, 1.0))
    ensures auto ==> (o.Some? <==> hi != lo && extentPx != 0.0)
    ensures o.Some? ==> o.value.lo == lo && o.value.scale != 0.0
    ensures auto && o.Some? ==> ToPixel(o.value, lo) == 0.0 && ToPixel(o.value, hi) == extentPx
  {
    if !auto then Some(Axis(lo, 1.0))
    else if hi == lo || extentPx == 0.0 then None
    else Some(Axis(lo, extentPx / (hi - lo)))
  }

  /** With the scale forced to 1 the map is a pure shift, so differences
      between coordinates do not depend on the view limits. */
  lemma UnitScaleIsShift(a: Axis, v: real, w: real)
    requires a.scale == 1.0
    ensures ToPixel(a, v) == v - a.lo
    ensures ToPixel(a, w) - ToPixel(a, v) == w - v
    ensures FromPixel(a, v) == v + a.lo
  {
  }

  /** The inverse map is affine, so it carries the midpoint of two pixel
      values to the midpoint of their data values. */
  lemma FromPixelMidpoint(a: Axis, u1: real, u2: real)
    requires a.scale != 0.0
    ensures FromPixel(a, (u2 + u1) / 2.0) == (FromPixel(a, u2) + FromPixel(a, u1)) / 2.0
  {
  }
}

=== FILE: brace.dfy ===
/** The geometry of the brace in pixel space: the radius, the four arc
    centres, and the endpoints of the four quarter-circle arcs. The sampled
    angles q run from θ to θ + π/2 and t is q reversed; each arc adds its
    own fixed phase to the sampled angle. With the quarter-turn identities
    every endpoint is an exact expression in p1, p2, r, cos θ and sin θ. */
module Brace {
  import opened Plane

  /** The chord from p1 to p2 as `curlyBrace` measures it: its length (the
      hypotenuse) and its heading (the arc tangent of the difference). */
  datatype Chord = Chord(p1: Point, p2: Point, len: real, dir: Heading)

  /** The length and heading really describe p2 − p1. */
  predicate WellFormed(ch: Chord) {
    && ch.len >= 0.0
    && IsUnit(ch.dir)
    && Sub(ch.p2, ch.p1) == Scale(ch.len, Along(ch.dir))
  }

  /** The chord travelled the other way: endpoints swapped, heading turned
      by half a turn, length unchanged. */
  function Reversed(ch: Chord): (r: Chord)
    ensures r.p1 == ch.p2 && r.p2 == ch.p1 && r.len == ch.len
    ensures Along(r.dir) == Scale(-1.0, Along(ch.dir))
    ensures WellFormed(ch) ==> WellFormed(r)
  {
    Chord(ch.p2, ch.p1, ch.len, HalfTurn(ch.dir))
  }

  /** The arc radius, `k_r` times the chord length. */
  function Radius(kr: real, len: real): (r: real)
    ensures kr >= 0.0 && len >= 0.0 ==> r >= 0.0
    ensures r == 0.0 <==> kr == 0.0 || len == 0.0
  {
    len * kr
  }

  datatype Centres = Centres(c1: Point, c2: Point, c3: Point, c4: Point)

  /** The four arc centres, in `curlyBrace`'s component form. The outer
      centres sit r inside the chord's ends; the inner two sit 2r apart
      along the chord, symmetric about a point 2r out along the normal
      from the chord's midpoint. */
  function ArcCentres(p1: Point, p2: Point, r: real, h: Heading): (k: Centres)
    ensures Sub(k.c1, p1) == Scale(r, Along(h))
    ensures Sub(p2, k.c4) == Scale(r, Along(h))
    ensures Sub(k.c3, k.c2) == Scale(2.0 * r, Along(h))
    ensures Mid(k.c2, k.c3) == Offset(Mid(p1, p2), 0.0, 2.0 * r, h)
  {
    var mx := (p2.x + p1.x) / 2.0;
    var my := (p2.y + p1.y) / 2.0;
    Centres(
      Point(p1.x + r * h.c, p1.y + r * h.s),
      Point(mx - 2.0 * r * h.s - r * h.c, my + 2.0 * r * h.c - r * h.s),
      Point(mx - 2.0 * r * h.s + r * h.c, my + 2.0 * r * h.c + r * h.s),
      Point(p2.x - r * h.c, p2.y - r * h.s))
  }

  /** The fixed phase each arc adds to the sampled angle. */
  datatype Phase = PlusQuarter | MinusQuarter | PlusHalf | NoShift

  function Shift(ph: Phase, u: Heading): Heading {
    match ph
    case PlusQuarter => QuarterTurn(u)
    case MinusQuarter => QuarterBack(u)
    case PlusHalf => HalfTurn(u)
    case NoShift => u
  }

  /** The arc point for the sampled angle u: the centre plus r times the
      unit vector at u plus the phase. */
  function ArcPoint(centre: Point, r: real, ph: Phase, u: Heading): Point {
    Add(centre, Scale(r, Along(Shift(ph, u))))
  }

  /** Every sample of every arc, not only its ends, lies on the circle of
      radius r about the arc's centre. */
  lemma ArcPointOnCircle(centre: Point, r: real, ph: Phase, u: Heading)
    requires IsUnit(u)
    ensures Norm2(Sub(ArcPoint(centre, r, ph, u), centre)) == r * r
  {
    var v := Shift(ph, u);
    assert IsUnit(v);
    calc {
      Norm2(Sub(ArcPoint(centre, r, ph, u), centre));
      (r * v.c) * (r * v.c) + (r * v.s) * (r * v.s);
      r * r * (v.c * v.c + v.s * v.s);
      r * r;
    }
  }

  /** q runs forward from θ to θ + π/2; t is q reversed. */
  datatype Sweep = Forward | Backward

  function SweepStart(sw: Sweep, h: Heading): Heading {
    match sw
    case Forward => h
    case Backward => QuarterTurn(h)
  }

  function SweepEnd(sw: Sweep, h: Heading): Heading {
    match sw
    case Forward => QuarterTurn(h)
    case Backward => h
  }

  /** The first and last sample of an arc. */
  datatype ArcEnds = ArcEnds(first: Point, last: Point)

  function ArcEndpoints(centre: Point, r: real, ph: Phase, sw: Sweep, h: Heading): ArcEnds {
    ArcEnds(ArcPoint(centre, r, ph, SweepStart(sw, h)), ArcPoint(centre, r, ph, SweepEnd(sw, h)))
  }

  /** The brace in pixel space: the ends of its four arcs and its summit,
      the last point of the second arc. */
  datatype Shape = Shape(arc1: ArcEnds, arc2: ArcEnds, arc3: ArcEnds, arc4: ArcEnds, summit: Point)

  /** Arc 1 runs over t with phase +π/2, arc 2 over q with phase −π/2,
      arc 3 over q with phase +π, arc 4 over t with no phase. The brace
      then starts exactly at p1 and ends exactly at p2; arcs 2 and 3 meet
      at the summit, 2r out along the normal from the chord's midpoint; and
      the four gap ends, joined by straight segments, lie r out along the
      normal. */
  function BuildShape(p1: Point, p2: Point, r: real, h: Heading): (b: Shape)
    ensures b.arc1.first == p1
    ensures b.arc4.last == p2
    ensures b.arc2.last == b.summit && b.arc3.first == b.summit
    ensures b.summit == Offset(Mid(p1, p2), 0.0, 2.0 * r, h)
    ensures b.arc1.last == Offset(p1, r, r, h)
    ensures b.arc2.first == Offset(Mid(p1, p2), -r, r, h)
    ensures b.arc3.last == Offset(Mid(p1, p2), r, r, h)
    ensures b.arc4.first == Offset(p2, -r, r, h)
  {
    var k := ArcCentres(p1, p2, r, h);
    var a2 := ArcEndpoints(k.c2, r, MinusQuarter, Forward, h);
    Shape(
      ArcEndpoints(k.c1, r, PlusQuarter, Backward, h),
      a2,
      ArcEndpoints(k.c3, r, PlusHalf, Forward, h),
      ArcEndpoints(k.c4, r, NoShift, Backward, h),
      a2.last)
  }

  /** The brace of a chord. */
  function ShapeOf(ch: Chord, kr: real): Shape {
    BuildShape(ch.p1, ch.p2, Radius(kr, ch.len), ch.dir)
  }

  /** The summit is at distance 2r from the chord's midpoint. */
  lemma SummitDistance(p1: Point, p2: Point, r: real, h: Heading)
    requires IsUnit(h)
    ensures Norm2(Sub(BuildShape(p1, p2, r, h).summit, Mid(p1, p2))) == 4.0 * r * r
  {
    var m := Mid(p1, p2);
    var d := Sub(BuildShape(p1, p2, r, h).summit, m);
    assert d == Scale(2.0 * r, Normal(h));
    calc {
      Norm2(d);
      (2.0 * r * -h.s) * (2.0 * r * -h.s) + (2.0 * r * h.c) * (2.0 * r * h.c);
      4.0 * r * r * (h.c * h.c + h.s * h.s);
      4.0 * r * r;
    }
  }

  /** The degenerate brace: with k_r = 0 or an empty chord the radius is 0,
      arc 1 collapses onto p1, arcs 2 and 3 onto the chord's midpoint (which
      is then the summit) and arc 4 onto p2. */
  lemma DegenerateCollapse(ch: Chord, kr: real)
    requires kr == 0.0 || ch.len == 0.0
    ensures var b, m := ShapeOf(ch, kr), Mid(ch.p1, ch.p2);
      && b.arc1 == ArcEnds(ch.p1, ch.p1)
      && b.arc2 == ArcEnds(m, m)
      && b.arc3 == ArcEnds(m, m)
      && b.arc4 == ArcEnds(ch.p2, ch.p2)
      && b.summit == m
  {
  }

  /** A well-formed chord between coincident points has length 0, as
      `hypot(0, 0)` does, whatever heading it carries. */
  lemma CoincidentEndsZeroLength(ch: Chord)
    requires WellFormed(ch)
    requires ch.p1 == ch.p2
    ensures ch.len == 0.0
  {
    var h := ch.dir;
    assert ch.len * h.c == 0.0 && ch.len * h.s == 0.0;
    calc {
      ch.len;
      ch.len * (h.c * h.c + h.s * h.s);
      (ch.len * h.c) * h.c + (ch.len * h.s) * h.s;
      0.0;
    }
  }

  /** With p1 = p2 the whole brace collapses onto that one point. */
  lemma CoincidentEndsCollapse(ch: Chord, kr: real)
    requires WellFormed(ch)
    requires ch.p1 == ch.p2
    ensures var b := ShapeOf(ch, kr);
      && b.arc1 == ArcEnds(ch.p1, ch.p1)
      && b.arc2 == ArcEnds(ch.p1, ch.p1)
      && b.arc3 == ArcEnds(ch.p1, ch.p1)
      && b.arc4 == ArcEnds(ch.p1, ch.p1)
      && b.summit == ch.p1
  {
    CoincidentEndsZeroLength(ch);
    DegenerateCollapse(ch, kr);
    assert Mid(ch.p1, ch.p2) == ch.p1;
  }

  /** Coordinates relative to the chord's midpoint: how far along the
      heading and how far along the left normal. */
  datatype Coords = Coords(along: real, across: real)

  function InFrame(ch: Chord, p: Point): Coords {
    var v := Sub(p, Mid(ch.p1, ch.p2));
    Coords(Dot(v, Along(ch.dir)), Dot(v, Normal(ch.dir)))
  }

  /** The ends of a well-formed chord sit half its length either side of
      the midpoint, on the chord's line. */
  lemma ChordEndsInFrame(ch: Chord)
    requires WellFormed(ch)
    ensures InFrame(ch, ch.p1) == Coords(-ch.len / 2.0, 0.0)
    ensures InFrame(ch, ch.p2) == Coords(ch.len / 2.0, 0.0)
    ensures InFrame(ch, Mid(ch.p1, ch.p2)) == Coords(0.0, 0.0)
  {
    var h, l, m := ch.dir, ch.len / 2.0, Mid(ch.p1, ch.p2);
    assert Sub(ch.p1, m) == Scale(-l, Along(h));
    assert Sub(ch.p2, m) == Scale(l, Along(h));
    assert Sub(m, m) == Scale(0.0, Along(h));
    forall k: real
      ensures Dot(Scale(k, Along(h)), Along(h)) == k
      ensures Dot(Scale(k, Along(h)), Normal(h)) == 0.0
    {
      calc {
        Dot(Scale(k, Along(h)), Along(h));
        k * (h.c * h.c + h.s * h.s);
        k;
      }
    }
  }

  /** A move from an anchor adds to the anchor's coordinates. */
  lemma OffsetInFrame(ch: Chord, p: Point, a: real, b: real)
    requires IsUnit(ch.dir)
    ensures InFrame(ch, Offset(p, a, b, ch.dir))
         == Coords(InFrame(ch, p).along + a, InFrame(ch, p).across + b)
  {
    var m := Mid(ch.p1, ch.p2);
    OffsetAlongCoordinate(p, m, a, b, ch.dir);
    OffsetNormalCoordinate(p, m, a, b, ch.dir);
  }

  /** The whole brace in the chord's frame, with l half the chord's length:
      it runs from (−l, 0) to (l, 0), its gap ends are at r across the
      chord, and its summit is 2r across, above the midpoint. */
  lemma ShapeInFrame(ch: Chord, kr: real)
    requires WellFormed(ch)
    ensures var b, r, l := ShapeOf(ch, kr), Radius(kr, ch.len), ch.len / 2.0;
      && InFrame(ch, b.arc1.first) == Coords(-l, 0.0)
      && InFrame(ch, b.arc1.last) == Coords(-l + r, r)
      && InFrame(ch, b.arc2.first) == Coords(-r, r)
      && InFrame(ch, b.summit) == Coords(0.0, 2.0 * r)
      && InFrame(ch, b.arc3.last) == Coords(r, r)
      && InFrame(ch, b.arc4.first) == Coords(l - r, r)
      && InFrame(ch, b.arc4.last) == Coords(l, 0.0)
  {
    var r, m := Radius(kr, ch.len), Mid(ch.p1, ch.p2);
    ChordEndsInFrame(ch);
    OffsetInFrame(ch, ch.p1, r, r);
    OffsetInFrame(ch, m, -r, r);
    OffsetInFrame(ch, m, 0.0, 2.0 * r);
    OffsetInFrame(ch, m, r, r);
    OffsetInFrame(ch, ch.p2, -r, r);
  }

  /** The brace is symmetric about the chord's perpendicular bisector: the
      mirror image (along-coordinate negated) swaps its two ends, swaps the
      ends of the two gap segments, and fixes the summit. */
  lemma MirrorAboutBisector(ch: Chord, kr: real)
    requires WellFormed(ch)
    ensures var b := ShapeOf(ch, kr);
      && InFrame(ch, b.arc4.last) == MirrorAlong(InFrame(ch, b.arc1.first))
      && InFrame(ch, b.arc4.first) == MirrorAlong(InFrame(ch, b.arc1.last))
      && InFrame(ch, b.arc3.last) == MirrorAlong(InFrame(ch, b.arc2.first))
      && InFrame(ch, b.summit) == MirrorAlong(InFrame(ch, b.summit))
  {
    ShapeInFrame(ch, kr);
  }

  function MirrorAlong(k: Coords): Coords {
    Coords(-k.along, k.across)
  }

  function MirrorAcross(k: Coords): Coords {
    Coords(k.along, -k.across)
  }

  /** The reversed chord has the same midpoint and opposite axes. */
  lemma ReversedFrame(ch: Chord, p: Point)
    ensures InFrame(Reversed(ch), p) == Coords(-InFrame(ch, p).along, -InFrame(ch, p).across)
  {
    assert Mid(ch.p2, ch.p1) == Mid(ch.p1, ch.p2);
  }

  /** Swapping p1 and p2 mirrors the brace in the chord: the reversed
      chord's brace starts at p2 and ends at p1, and its summit and gap ends
      are the mirror images (across-coordinate negated) of the original's,
      taken in reverse order. */
  lemma SwapMirrorsAcrossChord(ch: Chord, kr: real)
    requires WellFormed(ch)
    ensures WellFormed(Reversed(ch))
    ensures var b, b' := ShapeOf(ch, kr), ShapeOf(Reversed(ch), kr);
      && b'.arc1.first == b.arc4.last
      && b'.arc4.last == b.arc1.first
      && InFrame(ch, b'.summit) == MirrorAcross(InFrame(ch, b.summit))
      && InFrame(ch, b'.arc1.last) == MirrorAcross(InFrame(ch, b.arc4.first))
      && InFrame(ch, b'.arc2.first) == MirrorAcross(InFrame(ch, b.arc3.last))
      && InFrame(ch, b'.arc3.last) == MirrorAcross(InFrame(ch, b.arc2.first))
      && InFrame(ch, b'.arc4.first) == MirrorAcross(InFrame(ch, b.arc1.last))
  {
    var b' := ShapeOf(Reversed(ch), kr);
    ShapeInFrame(ch, kr);
    ShapeInFrame(Reversed(ch), kr);
    ReversedFrame(ch, b'.summit);
    ReversedFrame(ch, b'.arc1.last);
    ReversedFrame(ch, b'.arc2.first);
    ReversedFrame(ch, b'.arc3.last);
    ReversedFrame(ch, b'.arc4.first);
  }

  /** The worked example: p1 = (0, 0), p2 = (1, 1), k_r = 0.1 with
      auto-scaling off and both views starting at 0, so pixel space is data
      space. The heading is 45 degrees, so cos θ = sin θ = c with 2c² = 1,
      and the chord is 2c = √2 long. The chord is well formed and the
      summit is (0.3, 0.7), 2r = 0.2√2 from the midpoint (0.5, 0.5). */
  lemma SpanExample(c: real)
    requires c > 0.0 && 2.0 * c * c == 1.0
    ensures var ch := Chord(Point(0.0, 0.0), Point(1.0, 1.0), 2.0 * c, Heading(c, c));
      WellFormed(ch) && ShapeOf(ch, 0.1).summit == Point(0.3, 0.7)
  {
    var ch := Chord(Point(0.0, 0.0), Point(1.0, 1.0), 2.0 * c, Heading(c, c));
    var r := Radius(0.1, ch.len);
    assert r * c == 0.2 * c * c;
  }
}

=== FILE: curly_brace.dfy ===
/** One call of the brace routine on linear axes: map both endpoints into
    pixel space, build the brace there, map its arc endpoints and summit
    back to data space, and place the optional label. The quantities the
    routine obtains from the host or from transcendental functions (the
    region's pixel extent, the chord's length and heading in pixel space,
    and that heading in degrees) are parameters. */
module CurlyBrace {
  import opened Wrappers
  import opened Plane
  import opened AxisMap
  import opened Brace
  import opened Annotation
  import opened Degrees

  /** The caller's request. */
  datatype Request = Request(
    p1: Point, p2: Point, kr: real, auto: bool, text: string, lineNum: int)

  /** What the host reports: the region's size in pixels and the two view
      windows. */
  datatype View = View(
    widthPx: real, heightPx: real, xlo: real, xhi: real, ylo: real, yhi: real)

  /** What `curlyBrace` computes with arctan2, hypot and degrees from the two
      pixel-space endpoints. */
  datatype Measure = Measure(len: real, dir: Heading, degrees: real)

  /** The result: arc endpoints and summit in data space, and the label. */
  datatype Drawn = Drawn(
    arc1: ArcEnds, arc2: ArcEnds, arc3: ArcEnds, arc4: ArcEnds, summit: Point,
    caption: Placement)

  datatype Frame = Frame(xa: Axis, ya: Axis)

  function FrameOf(req: Request, v: View): (o: Option<Frame>)
    ensures o.Some? <==>
      !req.auto || (v.xhi != v.xlo && v.widthPx != 0.0 && v.yhi != v.ylo && v.heightPx != 0.0)
    ensures o.Some? ==> o.value.xa.scale != 0.0 && o.value.ya.scale != 0.0
    ensures o.Some? ==> o.value.xa.lo == v.xlo && o.value.ya.lo == v.ylo
    ensures o.Some? && !req.auto ==> o.value.xa.scale == 1.0 && o.value.ya.scale == 1.0
    ensures o.Some? && req.auto ==>
      ToPixel(o.value.xa, v.xhi) == v.widthPx && ToPixel(o.value.ya, v.yhi) == v.heightPx
  {
    match (MakeAxis(v.widthPx, v.xlo, v.xhi, req.auto), MakeAxis(v.heightPx, v.ylo, v.yhi, req.auto))
    case (Some(xa), Some(ya)) => Some(Frame(xa, ya))
    case _ => None
  }

  function PointToPixel(f: Frame, p: Point): Point {
    Point(ToPixel(f.xa, p.x), ToPixel(f.ya, p.y))
  }

  function PointFromPixel(f: Frame, u: Point): (p: Point)
    requires f.xa.scale != 0.0 && f.ya.scale != 0.0
    ensures PointToPixel(f, p) == u
  {
    Point(FromPixel(f.xa, u.x), FromPixel(f.ya, u.y))
  }

  function EndsFromPixel(f: Frame, a: ArcEnds): ArcEnds
    requires f.xa.scale != 0.0 && f.ya.scale != 0.0
  {
    ArcEnds(PointFromPixel(f, a.first), PointFromPixel(f, a.last))
  }

  /** The pixel-space chord the measurements describe. */
  function PixelChord(f: Frame, req: Request, m: Measure): Chord {
    Chord(PointToPixel(f, req.p1), PointToPixel(f, req.p2), m.len, m.dir)
  }

  /** The brace for the request. None when an auto-scaled axis has a view
      window of zero width or a region of zero pixels, where `curlyBrace`'s
      arithmetic produces non-finite numbers. Otherwise, in data space, the
      brace starts exactly at p1 and ends exactly at p2, arcs 2 and 3 meet
      at the summit. In pixel space, the four gap ends lie r along and r out
      from the mapped p1, the pixel midpoint and the mapped p2, and the
      summit lies 2r out along the normal from the pixel midpoint. The
      label is the one the label rule gives for the reduced angle. */
  function DrawBrace(req: Request, v: View, m: Measure): (o: Option<Drawn>)
    ensures o.Some? <==> FrameOf(req, v).Some?
    ensures o.Some? ==> o.value.arc1.first == req.p1 && o.value.arc4.last == req.p2
    ensures o.Some? ==> o.value.arc2.last == o.value.summit && o.value.arc3.first == o.value.summit
    ensures o.Some? ==> (o.value.caption.NoLabel? <==> req.text == "")
    ensures o.Some? && req.text != "" ==> o.value.caption.Placed?
    ensures o.Some? ==> o.value.caption == PlaceLabel(req.text, req.lineNum, Mod360(m.degrees))
    ensures o.Some? ==>
      var f := FrameOf(req, v).value;
      PointToPixel(f, o.value.summit)
        == Offset(Mid(PointToPixel(f, req.p1), PointToPixel(f, req.p2)), 0.0, 2.0 * Radius(req.kr, m.len), m.dir)
    ensures o.Some? ==>
      var f, r := FrameOf(req, v).value, Radius(req.kr, m.len);
      var u1, u2 := PointToPixel(f, req.p1), PointToPixel(f, req.p2);
      && PointToPixel(f, o.value.arc1.last) == Offset(u1, r, r, m.dir)
      && PointToPixel(f, o.value.arc2.first) == Offset(Mid(u1, u2), -r, r, m.dir)
      && PointToPixel(f, o.value.arc3.last) == Offset(Mid(u1, u2), r, r, m.dir)
      && PointToPixel(f, o.value.arc4.first) == Offset(u2, -r, r, m.dir)
  {
    match FrameOf(req, v)
    case None => None
    case Some(f) =>
      var b := ShapeOf(PixelChord(f, req, m), req.kr);
      Some(Drawn(
        EndsFromPixel(f, b.arc1), EndsFromPixel(f, b.arc2),
        EndsFromPixel(f, b.arc3), EndsFromPixel(f, b.arc4),
        PointFromPixel(f, b.arc2.last),
        PlaceLabel(req.text, req.lineNum, Mod360(m.degrees))))
  }

  /** In a frame of unit scales, a move made in pixel space from the
      shifted image of q maps back to the same move made from q. */
  lemma UnitFrameMove(f: Frame, q: Point, a: real, b: real, h: Heading)
    requires f.xa.scale == 1.0 && f.ya.scale == 1.0
    ensures PointFromPixel(f, Offset(Point(q.x - f.xa.lo, q.y - f.ya.lo), a, b, h)) == Offset(q, a, b, h)
  {
    var u := Offset(Point(q.x - f.xa.lo, q.y - f.ya.lo), a, b, h);
    UnitScaleIsShift(f.xa, u.x, 0.0);
    UnitScaleIsShift(f.ya, u.y, 0.0);
  }

  /** With auto-scaling off the view limits cancel out: the summit is the
      data-space midpoint moved 2r along the normal. */
  lemma UnscaledSummit(req: Request, v: View, m: Measure)
    requires !req.auto
    ensures DrawBrace(req, v, m).Some?
    ensures DrawBrace(req, v, m).value.summit
         == Offset(Mid(req.p1, req.p2), 0.0, 2.0 * Radius(req.kr, m.len), m.dir)
  {
    var f := FrameOf(req, v).value;
    assert f == Frame(Axis(v.xlo, 1.0), Axis(v.ylo, 1.0));
    var ch := PixelChord(f, req, m);
    var mid := Mid(req.p1, req.p2);
    assert Mid(ch.p1, ch.p2) == Point(mid.x - v.xlo, mid.y - v.ylo);
    UnitFrameMove(f, mid, 0.0, 2.0 * Radius(req.kr, m.len), m.dir);
  }

  /** With k_r = 0 the brace collapses and the summit is the midpoint of p1
      and p2, mapped back to data space: the midpoint in data space, since
      the axis maps are affine. */
  lemma FlatSummit(req: Request, v: View, m: Measure)
    requires req.kr == 0.0
    requires FrameOf(req, v).Some?
    ensures DrawBrace(req, v, m).Some?
    ensures DrawBrace(req, v, m).value.summit == Mid(req.p1, req.p2)
  {
    var f := FrameOf(req, v).value;
    var ch := PixelChord(f, req, m);
    DegenerateCollapse(ch, req.kr);
    FromPixelMidpoint(f.xa, ToPixel(f.xa, req.p1.x), ToPixel(f.xa, req.p2.x));
    FromPixelMidpoint(f.ya, ToPixel(f.ya, req.p1.y), ToPixel(f.ya, req.p2.y));
  }
}

=== FILE: degrees.dfy ===
/** Angles in degrees and Python's floating-point `% 360.0`, taken exactly:
    the remainder has the sign of the divisor, so it lies in [0, 360). */
module Degrees {

  /** a and b name the same direction: they differ by a whole number of turns. */
  predicate Congruent360(a: real, b: real) {
    var q := (a - b) / 360.0;
    q == q.Floor as real
  }

  /** `x % 360.0`, floor-division remainder as Python computes it. */
  function Mod360(x: real): (r: real)
    ensures 0.0 <= r < 360.0
    ensures Congruent360(x, r)
  {
    var k := (x / 360.0).Floor;
    assert (x - (x - 360.0 * k as real)) / 360.0 == k as real;
    x - 360.0 * k as real
  }

  /** The remainder is the only angle in [0, 360) naming the same direction. */
  lemma Mod360Unique(x: real, a: real)
    requires 0.0 <= a < 360.0
    requires Congruent360(x, a)
    ensures a == Mod360(x)
  {
    var m := Mod360(x);
    var i := ((x - a) / 360.0).Floor;
    var j := ((x - m) / 360.0).Floor;
    assert x - a == 360.0 * i as real;
    assert x - m == 360.0 * j as real;
    assert m - a == 360.0 * (i - j) as real;
    assert -1.0 < (i - j) as real < 1.0;
    assert i - j == 0;
  }

  /** Adding a whole turn does not change the direction. */
  lemma CongruentTurns(a: real, k: int)
    ensures Congruent360(a + 360.0 * k as real, a)
  {
    assert (a + 360.0 * k as real - a) / 360.0 == k as real;
  }

  /** The angle of the reversed chord: swapping the endpoints of a chord of
      non-zero length adds half a turn to `arctan2` before the remainder is
      taken. (For p1 = p2, `arctan2(0, 0)` is 0 in both orders, so the angle
      does not change.) */
  function SwapAngle(ang: real): (r: real)
    ensures 0.0 <= r < 360.0
    ensures Congruent360(ang + 180.0, r)
  {
    Mod360(ang + 180.0)
  }

  /** On [0, 360] the swapped angle is ang + 180 below 180 and ang − 180 from
      180 on; in particular 90 and 270 swap into each other. */
  lemma SwapAngleClosedForm(ang: real)
    requires 0.0 <= ang <= 360.0
    ensures SwapAngle(ang) == if ang < 180.0 then ang + 180.0 else ang - 180.0
  {
    if ang < 180.0 {
      CongruentTurns(ang + 180.0, 0);
      Mod360Unique(ang + 180.0, ang + 180.0);
    } else {
      CongruentTurns(ang - 180.0, 1);
      Mod360Unique(ang + 180.0, ang - 180.0);
    }
  }

  /** Swapping twice returns every normalised angle to itself. */
  lemma SwapAngleInvolution(ang: real)
    requires 0.0 <= ang < 360.0
    ensures SwapAngle(SwapAngle(ang)) == ang
  {
    SwapAngleClosedForm(ang);
    SwapAngleClosedForm(SwapAngle(ang));
  }
}

=== FILE: label.dfy ===
/** Placement of the optional text label at the summit: the text is padded
    with line breaks on the side away from the brace and turned so that it
    never reads upside down. */
module Annotation {
  import opened Wrappers
  import opened Plane
  import opened Degrees

  /** Where the line breaks go: after the text (rotation = ang) or before it
      (rotation = ang + 180). */
  datatype Side = After | Before

  /** The branch taken for the normalised angle ang. `curlyBrace` tests
      [0, 90] in one `if` and then (90, 270) and [270, 360] in a separate
      `if`/`elif`, the later one overwriting the earlier; an angle no test
      accepts leaves the rotation unset. */
  function SideFor(ang: real): (o: Option<Side>)
    ensures o.Some? <==> 0.0 <= ang <= 360.0
    ensures o == Some(Before) <==> 90.0 < ang < 270.0
    ensures o == Some(After) <==> (0.0 <= ang <= 90.0 || 270.0 <= ang <= 360.0)
  {
    var first := if 0.0 <= ang <= 90.0 then Some(After) else None;
    if 90.0 < ang < 270.0 then Some(Before)
    else if 270.0 <= ang <= 360.0 then Some(After)
    else first
  }

  /** The number of characters in `'\n' * n`: a negative count repeats
      nothing. */
  function PadCount(n: int): nat {
    if n < 0 then 0 else n
  }

  /** `'\n' * n`. */
  function Newlines(n: int): (r: string)
    ensures |r| == PadCount(n)
    ensures forall i :: 0 <= i < |r| ==> r[i] == '\n'
    decreases PadCount(n)
  {
    if n <= 0 then "" else Newlines(n - 1) + "\n"
  }

  /** The text actually drawn, and its rotation in degrees. */
  datatype Label = Label(rotation: real, text: string)

  /** No label for empty text; otherwise the placed label and the branch
      taken; or, for an angle outside [0, 360], the unset rotation that
      the drawing call would fail on. */
  datatype Placement = NoLabel | Placed(shown: Label, side: Side) | RotationUnbound

  /** The rotation that goes with each branch. */
  function RotationFor(side: Side, ang: real): real {
    match side
    case After => ang
    case Before => ang + 180.0
  }

  /** The label for `text` padded by `lineNum` line breaks at angle `ang`. */
  function PlaceLabel(text: string, lineNum: int, ang: real): (o: Placement)
    ensures o.NoLabel? <==> text == ""
    ensures o.RotationUnbound? <==> text != "" && !(0.0 <= ang <= 360.0)
    ensures o.Placed? ==> o.side == (if 90.0 < ang < 270.0 then Before else After)
    ensures o.Placed? ==> |o.shown.text| == |text| + PadCount(lineNum)
    ensures o.Placed? && o.side == After ==>
      && o.shown.rotation == ang
      && o.shown.text[..|text|] == text
      && forall i :: |text| <= i < |o.shown.text| ==> o.shown.text[i] == '\n'
    ensures o.Placed? && o.side == Before ==>
      && o.shown.rotation == ang + 180.0
      && o.shown.text[|o.shown.text| - |text|..] == text
      && forall i :: 0 <= i < |o.shown.text| - |text| ==> o.shown.text[i] == '\n'
  {
    if text == "" then NoLabel
    else
      var pad := Newlines(lineNum);
      match SideFor(ang)
      case None => RotationUnbound
      case Some(After) => Placed(Label(RotationFor(After, ang), text + pad), After)
      case Some(Before) => Placed(Label(RotationFor(Before, ang), pad + text), Before)
  }

  /** The branch and rotation for an angle and for its swap. */
  lemma SwapBranches(ang: real)
    requires 0.0 <= ang <= 360.0
    ensures SideFor(ang).Some? && SideFor(SwapAngle(ang)).Some?
    ensures var s, s' := SideFor(ang).value, SideFor(SwapAngle(ang)).value;
      var rot, rot' := RotationFor(s, ang), RotationFor(s', SwapAngle(ang));
      && (s != s' <==> ang != 90.0 && ang != 270.0)
      && Congruent360(rot', if ang == 90.0 || ang == 270.0 then rot + 180.0 else rot)
  {
    SwapAngleClosedForm(ang);
    if ang < 90.0 {
      CongruentTurns(ang, 1);
    } else if ang == 90.0 {
      CongruentTurns(ang + 180.0, 0);
    } else if ang < 180.0 {
      CongruentTurns(ang + 180.0, 0);
    } else if ang < 270.0 {
      CongruentTurns(ang + 180.0, -1);
    } else if ang == 270.0 {
      CongruentTurns(ang + 180.0, -1);
    } else {
      CongruentTurns(ang, 0);
    }
  }

  /** Swapping p1 and p2 turns the angle by half a turn. Then the line
      breaks change side and the rotation names the same direction, except
      at exactly 90 and 270 degrees, where both angles fall in an appending
      branch and the rotations differ by half a turn. */
  lemma SwapFlipsSide(text: string, lineNum: int, ang: real)
    requires text != ""
    requires 0.0 <= ang <= 360.0
    ensures PlaceLabel(text, lineNum, ang).Placed?
    ensures PlaceLabel(text, lineNum, SwapAngle(ang)).Placed?
    ensures var o, o' := PlaceLabel(text, lineNum, ang), PlaceLabel(text, lineNum, SwapAngle(ang));
      && (o.side != o'.side <==> ang != 90.0 && ang != 270.0)
      && (ang != 90.0 && ang != 270.0 ==> Congruent360(o'.shown.rotation, o.shown.rotation))
      && (ang == 90.0 || ang == 270.0 ==> Congruent360(o'.shown.rotation, o.shown.rotation + 180.0))
  {
    SwapBranches(ang);
    var o, o' := PlaceLabel(text, lineNum, ang), PlaceLabel(text, lineNum, SwapAngle(ang));
    assert o.side == SideFor(ang).value;
    assert o'.side == SideFor(SwapAngle(ang)).value;
    assert o.shown.rotation == RotationFor(o.side, ang);
    assert o'.shown.rotation == RotationFor(o'.side, SwapAngle(ang));
  }

  /** Whatever the angle, the label's rotation, reduced to [0, 360), is in
      [0, 90] or [270, 360): the text is never upside down. */
  lemma LabelReadsUpright(text: string, lineNum: int, ang: real)
    requires text != ""
    requires 0.0 <= ang <= 360.0
    ensures PlaceLabel(text, lineNum, ang).Placed?
    ensures var m := Mod360(PlaceLabel(text, lineNum, ang).shown.rotation);
      0.0 <= m <= 90.0 || 270.0 <= m < 360.0
  {
    var rot := PlaceLabel(text, lineNum, ang).shown.rotation;
    if rot < 360.0 {
      CongruentTurns(rot, 0);
      Mod360Unique(rot, rot);
    } else {
      CongruentTurns(rot - 360.0, 1);
      Mod360Unique(rot, rot - 360.0);
    }
  }

  /** The direction in which the padding pushes the visible text away from
      the anchor, for a label placed on a brace with heading h (the heading
      of the angle ang). The text's baseline runs along h when the rotation
      equals ang and along the reverse of h when it is half a turn more;
      breaks after the text push it up its own frame, breaks before it push
      it down. */
  function PaddingPush(o: Placement, ang: real, h: Heading): Heading
    requires o.Placed?
  {
    var baseline := if o.shown.rotation == ang then h else HalfTurn(h);
    var up := QuarterTurn(baseline);
    match o.side
    case After => up
    case Before => HalfTurn(up)
  }

  /** In every branch, including the boundary angles 90 and 270, the text is
      pushed along the brace's left normal, the direction in which the
      summit protrudes: the label sits outside the brace. */
  lemma LabelOnSummitSide(text: string, lineNum: int, ang: real, h: Heading)
    requires text != ""
    requires 0.0 <= ang <= 360.0
    ensures PlaceLabel(text, lineNum, ang).Placed?
    ensures Along(PaddingPush(PlaceLabel(text, lineNum, ang), ang, h)) == Normal(h)
  {
  }

  /** A label at 45 degrees with one line break is "Span\n", unrotated; the
      boundary angles 90 and 270 append, while 90.5 prepends. */
  lemma LabelExamples()
    ensures PlaceLabel("Span", 1, 45.0) == Placed(Label(45.0, "Span\n"), After)
    ensures PlaceLabel("Span", 1, 90.0) == Placed(Label(90.0, "Span\n"), After)
    ensures PlaceLabel("Span", 1, 270.0) == Placed(Label(270.0, "Span\n"), After)
    ensures PlaceLabel("Span", 1, 90.5) == Placed(Label(270.5, "\nSpan"), Before)
    ensures PlaceLabel("Span", -3, 0.0) == Placed(Label(0.0, "Span"), After)
  {
    assert Newlines(1) == "\n";
    assert Newlines(-3) == "";
  }
}

=== FILE: plane.dfy ===
/** Points of the plane and headings held as the pair (cos θ, sin θ).
    The quarter-turn identities of trigonometry are stated here once, as
    operations on headings, so that every arc endpoint of the brace becomes
    a linear expression in its inputs. */
module Plane {

  datatype Point = Point(x: real, y: real)

  function Add(a: Point, b: Point): Point {
    Point(a.x + b.x, a.y + b.y)
  }

  function Sub(a: Point, b: Point): Point {
    Point(a.x - b.x, a.y - b.y)
  }

  function Scale(k: real, a: Point): Point {
    Point(k * a.x, k * a.y)
  }

  /** The chord midpoint, written as `curlyBrace` writes it: (p2 + p1) / 2. */
  function Mid(a: Point, b: Point): Point {
    Point((b.x + a.x) / 2.0, (b.y + a.y) / 2.0)
  }

  function Dot(a: Point, b: Point): real {
    a.x * b.x + a.y * b.y
  }

  function Norm2(a: Point): real {
    Dot(a, a)
  }

  /** A direction θ, held as (cos θ, sin θ). */
  datatype Heading = Heading(c: real, s: real)

  predicate IsUnit(h: Heading) {
    h.c * h.c + h.s * h.s == 1.0
  }

  /** The vector (cos θ, sin θ). */
  function Along(h: Heading): Point {
    Point(h.c, h.s)
  }

  /** The left normal (−sin θ, cos θ): the side on which the brace bulges. */
  function Normal(h: Heading): Point {
    Point(-h.s, h.c)
  }

  /** θ + π/2, by cos(x + π/2) = −sin x and sin(x + π/2) = cos x. */
  function QuarterTurn(h: Heading): (r: Heading)
    ensures Along(r) == Normal(h)
    ensures Dot(Along(r), Along(h)) == 0.0
    ensures IsUnit(r) <==> IsUnit(h)
  {
    Heading(-h.s, h.c)
  }

  /** θ − π/2, by cos(x − π/2) = sin x and sin(x − π/2) = −cos x;
      it undoes a quarter turn in both orders. */
  function QuarterBack(h: Heading): (r: Heading)
    ensures QuarterTurn(r) == h
    ensures IsUnit(r) <==> IsUnit(h)
  {
    Heading(h.s, -h.c)
  }

  /** θ + π, by cos(x + π) = −cos x and sin(x + π) = −sin x; it is two
      quarter turns, and it reverses the direction of travel. */
  function HalfTurn(h: Heading): (r: Heading)
    ensures r == QuarterTurn(QuarterTurn(h))
    ensures Along(r) == Scale(-1.0, Along(h))
    ensures IsUnit(r) <==> IsUnit(h)
  {
    Heading(-h.c, -h.s)
  }

  /** Turning by a quarter and back, in either order, or by a half twice,
      gives the heading one started from. */
  lemma TurnsCancel(h: Heading)
    ensures QuarterBack(QuarterTurn(h)) == h
    ensures QuarterTurn(QuarterBack(h)) == h
    ensures HalfTurn(HalfTurn(h)) == h
  {
  }

  /** The point reached from p by moving a along the heading and b along
      its left normal. */
  function Offset(p: Point, a: real, b: real, h: Heading): Point {
    Point(p.x + a * h.c - b * h.s, p.y + a * h.s + b * h.c)
  }

  /** Moving along the heading does not change the normal coordinate, and
      moving along the normal changes it by exactly the distance moved. */
  lemma OffsetNormalCoordinate(p: Point, q: Point, a: real, b: real, h: Heading)
    requires IsUnit(h)
    ensures Dot(Sub(Offset(p, a, b, h), q), Normal(h)) == Dot(Sub(p, q), Normal(h)) + b
  {
    var n := Normal(h);
    assert Dot(Along(h), n) == 0.0;
    assert Dot(n, n) == 1.0;
    calc {
      Dot(Sub(Offset(p, a, b, h), q), n);
      (p.x - q.x + a * h.c - b * h.s) * (-h.s) + (p.y - q.y + a * h.s + b * h.c) * h.c;
      Dot(Sub(p, q), n) + a * (h.c * (-h.s) + h.s * h.c) + b * (h.s * h.s + h.c * h.c);
      Dot(Sub(p, q), n) + b;
    }
  }

  /** The companion of OffsetNormalCoordinate along the heading. */
  lemma OffsetAlongCoordinate(p: Point, q: Point, a: real, b: real, h: Heading)
    requires IsUnit(h)
    ensures Dot(Sub(Offset(p, a, b, h), q), Along(h)) == Dot(Sub(p, q), Along(h)) + a
  {
    calc {
      Dot(Sub(Offset(p, a, b, h), q), Along(h));
      (p.x - q.x + a * h.c - b * h.s) * h.c + (p.y - q.y + a * h.s + b * h.c) * h.s;
      Dot(Sub(p, q), Along(h)) + a * (h.c * h.c + h.s * h.s) + b * (h.c * (-h.s) + h.s * h.c);
      Dot(Sub(p, q), Along(h)) + a;
    }
  }
}

=== FILE: wrappers.dfy ===
/** The optional-value datatype used for the computations whose floating-point
    counterpart would yield a non-finite number or no value at all. */
module Wrappers {

  datatype Option<+T> = None | Some(value: T)
}
